=== FILE: README.md ===
# ArrowBlocks3D slide core in Dafny

A model of the sliding-block logic of the ArrowBlocks3D Unity puzzle. Each block
carries a fixed arrow direction; clicking it makes it slide along that direction.
A raycast reports the first collider of any tag within `tilesToMove`. When that
collider is a block or an obstacle, the block stops `safeDistance` short of it.
Otherwise it slides the full `tilesToMove`, even when an obstacle lies behind a
collider of another tag. Every accepted click spends one
move of the level's budget. A block that slides into the goal cube is cleared and
destroyed, and a key touched by the "finish" collider is collected once. The game
manager schedules the win panel when every block is cleared and the lose panel
when the last move is spent with blocks left.

Engine callbacks become explicit events (`Scene.Event`). Each script is a pure
step function on immutable records:

- `Blocks` (`blocks.dfy`, Block.cs) covers the direction table, the slide target,
  the click gate, the slide coroutine and `StopMovement`. Slide geometry is
  exact `real` arithmetic. A sliding block stores its end position and the
  distance still `remaining`. It always sits `remaining` behind the end along its
  direction, so `Vector3.Distance` is `remaining` (`RemainingIsDistance`) and
  `Vector3.MoveTowards` is a clamp of `remaining`.
- `BlockRegistry` (`registry.dfy`, Block.cs) is the static `allBlocks` list with
  the live block objects it names, and `DisableAllIdleBlocks`.
- `Game` (`game_manager.dfy`, GameManager.cs) holds the move budget and the
  win/lose counters. The delayed result panels are output signals.
- `Triggers` (`triggers.dfy`, Key.cs and FinishCube.cs) holds the two trigger scripts.
- `Scene` (`scene.dfy`) wires these together. It takes one event at a time and
  outputs sounds, scheduled panels and null dereferences. The manager's Start
  applies once, as Unity calls it once per object, so the budget is never
  refilled and the lose panel is scheduled at most once per level
  (`Scene.LevelLosesAtMostOnce`).

Inputs the model takes as parameters:
- The raycast result: no hit, or the first hit's tag and distance.
- The per-frame step `moveSpeed * Time.deltaTime`, which must be positive.
- The `allowBlockInput` flag read at Block.cs:49. GameManager.cs does not
  declare it, so the model takes it as a parameter of the click.
- Whether an audio player and a game manager exist.

Tags are the four values the scripts tell apart: "Block", "Obstacle", "finish"
and any other tag.

The model follows the scripts. It has none of the following:
- a global count of moving blocks;
- transparency of moving blocks to another block's raycast;
- chain-reaction pushes;
- a caller of `DisableAllIdleBlocks` (it is a scene event anyone may fire).

Also as written:
- A click does not consult the block's `enabled` flag.
- The raycast does not ignore blocks that are themselves sliding.
- The lose check runs when the last move is used, before that move's slide ends.
  So a last move that clears the last block schedules both panels
  (`Game.LastMoveWinAlsoLoses`).

## Model

| member | source | states |
|---|---|---|
| `Blocks.DirectionVector` | Assets/Scripts/Block.cs:61-71 | every arrow direction maps to a vector with no vertical component |
| `Blocks.DirectionIsUnitAxis` | Assets/Scripts/Block.cs:61-71 | each direction is a unit vector along one horizontal axis: Up/Down on z, Left/Right on x |
| `Blocks.DirectionRoundTrip` | Assets/Scripts/Block.cs:61-71 | the direction table is invertible: reading a direction back off its vector gives the same direction |
| `Blocks.DirectionsDistinct` | Assets/Scripts/Block.cs:61-71 | two directions have the same vector iff they are the same direction |
| `Blocks.DirectionsOpposite` | Assets/Scripts/Block.cs:61-71 | Down is Up reversed and Left is Right reversed |
| `Blocks.PlanSlide` | Assets/Scripts/Block.cs:73-103 | the end lies on the ray at distance `travel`; `hitSomething` holds exactly for a hit tagged Block or Obstacle; with no such hit the block travels the full `tilesToMove`; after a stopping hit it travels 0 when the hit is within `safeDistance`, else it stops exactly `safeDistance` before the hit |
| `Blocks.PlanSlideOnRay` | Assets/Scripts/Block.cs:77-97 | the planned end is `startPos + direction * dist` for the slide's travel `dist` |
| `Blocks.SlideSound` | Assets/Scripts/Block.cs:79-103 | a slide starts with the hit sound iff it hit a block or an obstacle, and with the move sound otherwise |
| `Blocks.PlanSlideBounded` | Assets/Scripts/Block.cs:82-97 | with a raycast no longer than `tilesToMove` and `safeDistance >= 0`, travel is between 0 and `tilesToMove`, never past the hit, horizontal, and equals the straight-line distance from the start |
| `Blocks.PlanSlideExample` | Assets/Scripts/Block.cs:8-10 | a block at the origin sliding Right (80 tiles, safe distance 1.5) with an obstacle 20 away ends at x = 18.5 and plays the hit sound |
| `Blocks.NewBlock` | Assets/Scripts/Block.cs:18-25 | a block enters the scene idle and enabled at its placed position |
| `Blocks.RemainingIsDistance` | Assets/Scripts/Block.cs:106 | for a sliding block, the loop test `Distance(position, end) > 0.01` is the same as `remaining > 0.01` |
| `Blocks.Resume` | Assets/Scripts/Block.cs:106-114 | one frame of the slide: no overshoot, at most `step` of progress (exactly `step` when farther than that), the same end; the loop ends only within 0.01 of the end, snapping exactly onto it, clearing `isMoving` and stopping sounds; an idle block is unaffected |
| `Blocks.Resumes` | Assets/Scripts/Block.cs:106-113 | over any number of frames the block stays consistent, keeps its end position, and is exactly on it once idle |
| `Blocks.SlideSettles` | Assets/Scripts/Block.cs:106-113 | with every frame's step at least `s`, a slide with at most `(n-1)*s` left is over after `n` frames: idle, `isMoving` false, exactly at its end position |
| `Blocks.Click` | Assets/Scripts/Block.cs:46-59 | a click uses a move iff input is allowed and the block is idle; other clicks change nothing; an accepted click fires exactly one of the hit and move sounds, chosen by `hitSomething`, and heads for the planned end; it changes only the position and the slide state. The first loop pass runs in the click frame: a planned travel of at most 0.01 settles at once (idle, with StopAllSounds); a longer one keeps sliding with exactly `max(0, travel - step)` left |
| `Blocks.StopMovement` | Assets/Scripts/Block.cs:117-122 | the block is idle where it stands, nothing else changes, sounds stop |
| `Blocks.StopMovementIdempotent` | Assets/Scripts/Block.cs:117-122 | a second StopMovement changes no state |
| `BlockRegistry.EmptyRegistry` | Assets/Scripts/Block.cs:19 | the static list starts empty, with no live blocks, and is well formed |
| `BlockRegistry.Register` | Assets/Scripts/Block.cs:23-25 | Awake appends the new block to the list; the list stays duplicate-free and in step with the live blocks |
| `BlockRegistry.FirstIndex` | Assets/Scripts/Block.cs:43 | the position List.Remove searches for: it holds the element and nothing before it does |
| `BlockRegistry.RemoveFirst` | Assets/Scripts/Block.cs:41-44 | List.Remove cuts out the first occurrence and keeps the others in order; it leaves a list without the element unchanged, removes exactly one copy (multiset difference), and keeps a duplicate-free list duplicate-free |
| `BlockRegistry.RemoveFirstCons` | Assets/Scripts/Block.cs:43 | when the head is another element, the head stays in front of what removal from the tail leaves |
| `BlockRegistry.OrderedRemoval` | Assets/Scripts/Block.cs:43 | any list that is the original with its first occurrence cut out has one copy fewer and no new duplicates |
| `BlockRegistry.RemoveFirstRemoves` | Assets/Scripts/Block.cs:41-44 | on a duplicate-free list the removed block no longer occurs and every other block still does |
| `BlockRegistry.Unregister` | Assets/Scripts/Block.cs:41-44 | OnDestroy leaves the List.Remove result as the list, removes the block from the scene, and leaves every other block untouched |
| `BlockRegistry.DisableIdle` | Assets/Scripts/Block.cs:124-131 | the loop disables exactly the listed blocks that are not moving and leaves every other block as it was |
| `BlockRegistry.DisableAllIdleBlocks` | Assets/Scripts/Block.cs:124-131 | a block ends up enabled iff it was enabled and moving; position, slide and the list are unchanged |
| `Game.Fresh` | Assets/Scripts/GameManager.cs:26-29 | a new manager has no cleared blocks and no keys |
| `Game.Start` | Assets/Scripts/GameManager.cs:38-41 | the remaining budget becomes `totalMoves` and `totalBlocks` becomes the number of blocks in the scene; nothing else changes |
| `Game.StartedLevel` | Assets/Scripts/GameManager.cs:26-41 | after Start, `remainingMoves = totalMoves` and `clearedBlocks = 0` |
| `Game.AddKey` | Assets/Scripts/GameManager.cs:54-58 | keys go up by exactly one; no other counter changes |
| `Game.UseMove` | Assets/Scripts/GameManager.cs:60-72 | a positive budget drops by exactly one and a zero budget is untouched; a loss is scheduled iff this call spends the last move while `clearedBlocks < totalBlocks`; never a win |
| `Game.BlockCleared` | Assets/Scripts/GameManager.cs:74-97 | cleared goes up by exactly one; the block counter shows `totalBlocks - clearedBlocks`; a win is scheduled iff afterwards `clearedBlocks >= totalBlocks`; never a loss |
| `Game.RunAccounting` | Assets/Scripts/GameManager.cs:54-82 | over any call sequence the budget is `max(0, start - UseMove calls)` and never negative; clears and keys count their own calls |
| `Game.LoseAtMostOnce` | Assets/Scripts/GameManager.cs:60-72 | over any call sequence the loss is scheduled at most once, and never when the budget started at zero |
| `Game.LastMoveWinAlsoLoses` | Assets/Scripts/GameManager.cs:60-97 | with one move and one block, using the move and then clearing the block schedules the loss and then the win |
| `Triggers.NewKey` | Assets/Scripts/Key.cs:7 | a key starts uncollected |
| `Triggers.KeyTriggerEnter` | Assets/Scripts/Key.cs:9-24 | a contact not tagged "finish", or any contact after collection, changes nothing; the first "finish" contact marks the key collected and destroyed, and calls AddKey iff a manager exists |
| `Triggers.KeyCollectedOnce` | Assets/Scripts/Key.cs:7-24 | over any contact sequence a key makes at most one AddKey call (none once collected), and it ends collected iff some contact was tagged "finish" |
| `Triggers.FinishTriggerEnter` | Assets/Scripts/FinishCube.cs:7-19 | the goal destroys the other object iff it is tagged "Block", and counts a clear iff it is tagged "Block" and a manager exists |
| `Scene.EmptyScene` | Assets/Scripts/Block.cs:19 | a level starts with an empty block list, no manager, Start not yet run, and every key new and uncollected |
| `Scene.Sounds` | Assets/Scripts/Block.cs:93-121 | with an audio player every hook reaches it, in order; without one (the `?.` calls) none does |
| `Scene.Shows` | Assets/Scripts/GameManager.cs:105-115 | every scheduled signal shows its panel, in order |
| `Scene.Step` | Assets/Scripts/Block.cs:18-131 | every event keeps the scene valid: the list matches the live blocks, each block has `isMoving` iff its slide runs, the budget is never negative and stays 0 until Start, and a key is destroyed iff collected; once Start has run it stays run |
| `Scene.OnMouseDown` | Assets/Scripts/Block.cs:46-59 | a click keeps the scene valid and touches neither keys nor the Start flag |
| `Scene.OnFinishTouched` | Assets/Scripts/FinishCube.cs:7-19 | a goal contact keeps the scene valid and touches neither keys nor the Start flag |
| `Scene.OnKeyTouched` | Assets/Scripts/Key.cs:9-24 | a key contact keeps the scene valid and the set of keys unchanged |
| `Scene.Play` | Assets/Scripts/GameManager.cs:60-72 | the same invariants hold after any sequence of events, so `remainingMoves` never goes below 0 |
| `Scene.MouseDownUsesOneMove` | Assets/Scripts/Block.cs:46-59 | with a manager, a click calls UseMove once and updates only that block iff input is allowed and the block is idle; otherwise the scene and outputs are unchanged |
| `Scene.MouseDownWithoutManager` | Assets/Scripts/Block.cs:49 | with no manager, a click dereferences null and changes nothing |
| `Scene.FinishTouchedEffect` | Assets/Scripts/FinishCube.cs:7-19 | a non-"Block" contact changes nothing; a "Block" contact removes that block from the list and scene, leaves the other blocks untouched, and counts one clear exactly when a manager exists |
| `Scene.KeyTouchedEffect` | Assets/Scripts/Key.cs:9-24 | a key contact never touches the blocks; only the first "finish" contact collects the key, and it adds one key to the manager if there is one |
| `Scene.StepLoss` | Assets/Scripts/GameManager.cs:38-72 | one event schedules a loss only by spending the last move of a started manager, which uses up the level's one loss |
| `Scene.MouseDownLoss` | Assets/Scripts/GameManager.cs:60-72 | a click shows the lose panel only when its UseMove spends the last move |
| `Scene.FinishTouchedLoss` | Assets/Scripts/GameManager.cs:74-97 | a goal contact never shows the lose panel and leaves the budget alone |
| `Scene.PlayLosesAtMostOnce` | Assets/Scripts/GameManager.cs:38-72 | over any event sequence the lose panel is shown at most once, and not at all once a started manager's budget is spent |
| `Scene.LevelLosesAtMostOnce` | Assets/Scripts/GameManager.cs:38-72 | a level played from an empty scene shows the lose panel at most once, whatever the events |

## Left out

- Unity physics is not modelled. `Physics.Raycast` is an input: an optional first hit, with a tag and a distance. The bound "distance no greater than `tilesToMove`" (`Blocks.RaycastResult`) is assumed only by `Blocks.PlanSlideBounded`. `Blocks.PlanSlide`, `Blocks.Click` and `Scene.Step` accept a hit at any distance. A collision with an obstacle is the `ObstacleCollision` event. Obstacle.cs's hit prefab and hit sound are effects.
- Coroutine timing is not modelled. `Time.deltaTime` and `moveSpeed` appear only as a positive step per frame. A zero or negative `moveSpeed` is not modelled. The result-panel delay (`WaitForSeconds`) is not modelled: a panel is shown at the moment it is scheduled.
- The first loop iteration of `MoveBlock` runs inside `StartCoroutine`, in the click frame. `Blocks.Click` therefore takes that frame's step. Later frames are `FrameTick` events.
- `Destroy` takes effect at the end of the frame in Unity. For a block the model applies it at once (registry removal). A key stays in the scene marked destroyed.
- Scene.Play: requires a non-negative `totalMoves` (`Scene.ValidEvent`). The serialized field at GameManager.cs:12 accepts any int. With a negative budget, UseMove (GameManager.cs:62) never decrements and never schedules a loss. No negative-budget level is modelled.
- Game.RunAccounting: requires `remainingMoves >= 0`, for the same reason as Scene.Play.
- Game.LoseAtMostOnce: requires `remainingMoves >= 0`, for the same reason as Scene.Play.
- Float arithmetic is replaced by exact reals. A negative `tilesToMove` is excluded as a configuration error.
- Blocks.PlanSlideBounded: assumes `safeDistance >= 0`. A negative `safeDistance` would let a block stop past the obstruction.
- UI text is not modelled (move, key and block labels; win/lose panel activation; `PlayerUI.cs`). The one exception is the block counter value that `BlockCleared` writes. `AddKey` writes `keyText` without a null check; that exception is not modelled. Only the counter increment before it is.
- Scene loading is not modelled (`PlayAgain`, `Score.cs`). Neither are `PlayerData.cs` rewards, `Rotator.cs` rotation (its only logic is a UseMove after rotating), `SubBlock.cs` rotation lock, `RotatingObstacle.cs` flashing, `AudioPlayer.cs` clip playback and the `hitPrefab` instantiation. All are presentation or persistence with no bearing on the slide core.
- `int` counters are unbounded. The 32-bit counters in the source cannot realistically overflow: they count moves, blocks and keys of one level.

=== FILE: blocks.dfy ===
/**
  One sliding block (Block.cs): the direction table, the slide target chosen
  from a raycast, the click gate, the per-frame interpolation of the slide
  coroutine, and StopMovement.

  The slide coroutine is modelled as an explicit `Motion`. While it runs the
  block sits on the segment towards `end`, `remaining` units away from it along
  the block's direction, so Vector3.Distance(position, end) is `remaining` and
  Vector3.MoveTowards along that segment is a clamp on `remaining`.
*/
module Blocks {
  import opened Options
  import opened Geometry

  datatype Direction = Up | Down | Left | Right

  /**
    A collider's tag. The scripts compare tags only against "Block",
    "Obstacle" and "finish"; every other tag behaves alike.
  */
  datatype Tag = BlockTag | ObstacleTag | FinishTag | OtherTag

  /** The slide loop runs while the block is farther than this from its end position. */
  const Eps: real := 0.01

  /** The tags a slide stops in front of. */
  predicate StopsSlide(tag: Tag) {
    tag == BlockTag || tag == ObstacleTag
  }

  /** The first collider a raycast reports: its tag and its distance from the ray origin. */
  datatype Hit = Hit(tag: Tag, distance: real)

  /** What the physics engine guarantees of a raycast cast with length `tilesToMove`. */
  predicate RaycastResult(hit: Option<Hit>, tilesToMove: real) {
    hit.Some? ==> 0.0 <= hit.value.distance <= tilesToMove
  }

  /** Calls made on the audio player. */
  datatype Hook = PlayHitSound | PlayMoveSound | StopAllSounds

  /** GetDirectionVector: Up, Down, Left, Right are Vector3.forward, back, left, right. */
  function DirectionVector(d: Direction): (v: Vec3)
    ensures v.y == 0.0
  {
    match d
    case Up => Vec3(0.0, 0.0, 1.0)
    case Down => Vec3(0.0, 0.0, -1.0)
    case Left => Vec3(-1.0, 0.0, 0.0)
    case Right => Vec3(1.0, 0.0, 0.0)
  }

  /** Every direction is a horizontal unit vector along exactly one axis. */
  lemma DirectionIsUnitAxis(d: Direction)
    ensures var v := DirectionVector(d);
      && v.y == 0.0
      && v.x * v.x + v.z * v.z == 1.0
      && (v.x == 0.0 <==> d == Up || d == Down)
      && (v.z == 0.0 <==> d == Left || d == Right)
  {
  }

  /** Reads an arrow direction back off its vector; anything else is not a direction. */
  function DirectionOf(v: Vec3): Option<Direction> {
    if v.x == 0.0 && v.y == 0.0 && v.z == 1.0 then Some(Up)
    else if v.x == 0.0 && v.y == 0.0 && v.z == -1.0 then Some(Down)
    else if v.x == -1.0 && v.y == 0.0 && v.z == 0.0 then Some(Left)
    else if v.x == 1.0 && v.y == 0.0 && v.z == 0.0 then Some(Right)
    else None
  }

  /** The direction table is invertible: a direction is recovered from its vector. */
  lemma DirectionRoundTrip(d: Direction)
    ensures DirectionOf(DirectionVector(d)) == Some(d)
  {
    match d
    case Up =>
    case Down =>
    case Left =>
    case Right =>
  }

  /** Different directions are different vectors. */
  lemma DirectionsDistinct(d1: Direction, d2: Direction)
    ensures DirectionVector(d1) == DirectionVector(d2) <==> d1 == d2
  {
    DirectionRoundTrip(d1);
    DirectionRoundTrip(d2);
  }

  /** Down is Up reversed and Left is Right reversed. */
  lemma DirectionsOpposite()
    ensures DirectionVector(Down) == Neg(DirectionVector(Up))
    ensures DirectionVector(Left) == Neg(DirectionVector(Right))
  {
  }

  /** The point `p + DirectionVector(d) * t`, written per axis so that it stays linear in `t`. */
  function Along(p: Vec3, d: Direction, t: real): Vec3 {
    match d
    case Up => p.(z := p.z + t)
    case Down => p.(z := p.z - t)
    case Left => p.(x := p.x - t)
    case Right => p.(x := p.x + t)
  }

  /** Moving `t` along a direction covers a squared distance of `t * t` and keeps the height. */
  lemma AlongDirection(p: Vec3, d: Direction, t: real)
    ensures DistSq(p, Along(p, d, t)) == t * t
    ensures DistSq(Along(p, d, -t), p) == t * t
    ensures Along(p, d, t).y == p.y
  {
  }

  /** Outcome of the set-up part of MoveBlock. */
  datatype SlidePlan = SlidePlan(end: Vec3, travel: real, hitSomething: bool)

  /**
    The end position of a slide from `start`: the full `tilesToMove` unless
    the raycast hit a block or an obstacle, in which case the block stops
    `safeDistance` short of the hit point, but never behind its start.
  */
  function PlanSlide(start: Vec3, d: Direction, tilesToMove: real, safeDistance: real, hit: Option<Hit>): (p: SlidePlan)
    ensures p.end == Along(start, d, p.travel)
    ensures p.hitSomething <==> hit.Some? && (hit.value.tag == BlockTag || hit.value.tag == ObstacleTag)
    ensures !p.hitSomething ==> p.travel == tilesToMove
    ensures p.hitSomething ==> 0.0 <= p.travel
    ensures p.hitSomething && hit.value.distance <= safeDistance ==> p.travel == 0.0
    ensures p.hitSomething && hit.value.distance > safeDistance ==> hit.value.distance - p.travel == safeDistance
  {
    if hit.Some? && StopsSlide(hit.value.tag) then
      var stopDist := Max(0.0, hit.value.distance - safeDistance);
      SlidePlan(Along(start, d, stopDist), stopDist, true)
    else
      SlidePlan(Along(start, d, tilesToMove), tilesToMove, false)
  }

  /** The planned end is `startPos + direction * dist`, with `dist` the slide's travel. */
  lemma PlanSlideOnRay(start: Vec3, d: Direction, tilesToMove: real, safeDistance: real, hit: Option<Hit>)
    ensures var p := PlanSlide(start, d, tilesToMove, safeDistance, hit);
      p.end == Add(start, Scale(DirectionVector(d), p.travel))
  {
  }

  /** The one sound a slide starts with. */
  function SlideSound(p: SlidePlan): (h: Hook)
    ensures h == PlayHitSound <==> p.hitSomething
    ensures h == PlayMoveSound <==> !p.hitSomething
  {
    if p.hitSomething then PlayHitSound else PlayMoveSound
  }

  /**
    A slide never goes backwards, never goes farther than `tilesToMove`,
    never reaches the obstruction it stopped for, and stays in its plane.
  */
  lemma PlanSlideBounded(start: Vec3, d: Direction, tilesToMove: real, safeDistance: real, hit: Option<Hit>)
    requires 0.0 <= tilesToMove && 0.0 <= safeDistance
    requires RaycastResult(hit, tilesToMove)
    ensures var p := PlanSlide(start, d, tilesToMove, safeDistance, hit);
      && 0.0 <= p.travel <= tilesToMove
      && (p.hitSomething ==> p.travel <= hit.value.distance)
      && p.end.y == start.y
      && DistSq(start, p.end) == p.travel * p.travel
  {
    var p := PlanSlide(start, d, tilesToMove, safeDistance, hit);
    AlongDirection(start, d, p.travel);
  }

  /** A block at the origin sliding right, 80 tiles, safe distance 1.5, obstacle 20 away: it stops at x = 18.5 with the hit sound. */
  lemma PlanSlideExample()
    ensures var p := PlanSlide(Vec3(0.0, 0.0, 0.0), Right, 80.0, 1.5, Some(Hit(ObstacleTag, 20.0)));
      p.end == Vec3(18.5, 0.0, 0.0) && SlideSound(p) == PlayHitSound
  {
    var h := Hit(ObstacleTag, 20.0);
    assert StopsSlide(h.tag);
    var p := PlanSlide(Vec3(0.0, 0.0, 0.0), Right, 80.0, 1.5, Some(h));
    assert p.hitSomething && h.distance > 1.5;
    assert p.travel == 18.5;
    assert p.end == Vec3(18.5, 0.0, 0.0);
  }

  /** The coroutine state of a block: idle, or sliding with `remaining` left to `end`. */
  datatype Motion = Idle | Sliding(end: Vec3, remaining: real)

  datatype Block = Block(
    pos: Vec3,
    direction: Direction,
    tilesToMove: real,
    safeDistance: real,
    isMoving: bool,
    enabled: bool,
    motion: Motion)

  /** `isMoving` is set exactly while the slide coroutine runs, and a sliding block lies on its track. */
  predicate Consistent(b: Block) {
    && 0.0 <= b.tilesToMove
    && (b.isMoving <==> b.motion.Sliding?)
    && (b.motion.Sliding? ==>
          && 0.0 <= b.motion.remaining
          && b.pos == Along(b.motion.end, b.direction, -b.motion.remaining))
  }

  /** A block as it enters the scene: idle and enabled. */
  function NewBlock(pos: Vec3, d: Direction, tilesToMove: real, safeDistance: real): (b: Block)
    requires 0.0 <= tilesToMove
    ensures Consistent(b)
    ensures !b.isMoving && b.enabled && b.pos == pos && b.direction == d
  {
    Block(pos, d, tilesToMove, safeDistance, false, true, Idle)
  }

  /** The loop test of MoveBlock, Vector3.Distance(position, end) > 0.01, reads `remaining`. */
  lemma RemainingIsDistance(b: Block)
    requires Consistent(b) && b.motion.Sliding?
    ensures DistSq(b.pos, b.motion.end) == b.motion.remaining * b.motion.remaining
    ensures DistSq(b.pos, b.motion.end) > Eps * Eps <==> b.motion.remaining > Eps
  {
    AlongDirection(b.motion.end, b.direction, b.motion.remaining);
    SquareMonotone(b.motion.remaining, Eps);
  }

  lemma SquareMonotone(r: real, e: real)
    requires 0.0 <= r && 0.0 < e
    ensures r * r > e * e <==> r > e
  {
    if r > e {
      assert r * r > e * r > e * e;
    } else {
      assert r * r <= e * r <= e * e;
    }
  }

  datatype Reaction = Reaction(block: Block, hooks: seq<Hook>)

  /**
    One resumption of the slide coroutine in a frame whose step is
    moveSpeed * Time.deltaTime: while farther than Eps from the end, move
    towards it by at most `step`; otherwise snap onto the end and go idle.
  */
  function Resume(b: Block, step: real): (r: Reaction)
    requires Consistent(b) && 0.0 < step
    ensures Consistent(r.block)
    ensures r.block.(pos := b.pos, isMoving := b.isMoving, motion := b.motion) == b
    ensures b.motion.Idle? ==> r == Reaction(b, [])
    ensures b.motion.Sliding? && r.block.motion.Sliding? ==>
      && Eps < b.motion.remaining
      && r.block.motion.end == b.motion.end
      && 0.0 <= r.block.motion.remaining <= b.motion.remaining
      && b.motion.remaining - r.block.motion.remaining <= step
      && (step < b.motion.remaining ==> r.block.motion.remaining == b.motion.remaining - step)
      && (b.motion.remaining <= step ==> r.block.motion.remaining == 0.0 && r.block.pos == b.motion.end)
      && r.hooks == []
    ensures b.motion.Sliding? && r.block.motion.Idle? ==>
      && b.motion.remaining <= Eps
      && r.block.pos == b.motion.end
      && !r.block.isMoving
      && r.hooks == [StopAllSounds]
  {
    match b.motion
    case Idle => Reaction(b, [])
    case Sliding(end, remaining) =>
      if remaining > Eps then
        var left := if remaining <= step then 0.0 else remaining - step;
        Reaction(b.(pos := Along(end, b.direction, -left), motion := Sliding(end, left)), [])
      else
        Reaction(b.(pos := end, isMoving := false, motion := Idle), [StopAllSounds])
  }

  predicate PositiveSteps(steps: seq<real>) {
    forall i :: 0 <= i < |steps| ==> 0.0 < steps[i]
  }

  /** The coroutine resumed once per frame, with the given per-frame steps. */
  function Resumes(b: Block, steps: seq<real>): (r: Block)
    requires Consistent(b) && PositiveSteps(steps)
    ensures Consistent(r)
    ensures r.direction == b.direction && r.enabled == b.enabled
    ensures b.motion.Sliding? && r.motion.Sliding? ==> r.motion.end == b.motion.end
    ensures b.motion.Sliding? && r.motion.Idle? ==> r.pos == b.motion.end
    ensures b.motion.Idle? ==> r == b
    decreases |steps|
  {
    if |steps| == 0 then b else Resumes(Resume(b, steps[0]).block, steps[1..])
  }

  /**
    With every frame's step at least `s`, a slide with `remaining` at most
    (n - 1) * s is over after n frames: the block is idle and exactly on its
    end position.
  */
  lemma {:induction false} SlideSettles(b: Block, steps: seq<real>, s: real)
    requires Consistent(b) && b.motion.Sliding? && 0.0 < s
    requires forall i :: 0 <= i < |steps| ==> s <= steps[i]
    requires 1 <= |steps| && b.motion.remaining <= (|steps| - 1) as real * s
    ensures Resumes(b, steps).motion.Idle?
    ensures !Resumes(b, steps).isMoving
    ensures Resumes(b, steps).pos == b.motion.end
    decreases |steps|
  {
    var rest := steps[1..];
    var next := Resume(b, steps[0]).block;
    assert Resumes(b, steps) == Resumes(next, rest);
    FrameProgress(b, steps[0], s, |steps|);
    if next.motion.Sliding? {
      assert forall i :: 0 <= i < |rest| ==> s <= rest[i] by {
        forall i | 0 <= i < |rest| ensures s <= rest[i] {
          assert rest[i] == steps[i + 1];
        }
      }
      SlideSettles(next, rest, s);
    }
  }

  /** One frame of a slide whose budget is `n` frames of at least `s` leaves a budget of `n - 1`, or ends it. */
  lemma FrameProgress(b: Block, step: real, s: real, n: int)
    requires Consistent(b) && b.motion.Sliding? && 0.0 < s <= step
    requires 1 <= n && b.motion.remaining <= (n - 1) as real * s
    ensures var next := Resume(b, step).block;
      || (next.motion.Idle? && next.pos == b.motion.end)
      || (&& next.motion.Sliding?
          && next.motion.end == b.motion.end
          && 2 <= n
          && next.motion.remaining <= (n - 2) as real * s)
  {
    var next := Resume(b, step).block;
    if next.motion.Sliding? {
      FramesLeft(n, s, b.motion.remaining);
    }
  }

  /** A slide still running after a frame had at least one more frame in its budget. */
  lemma FramesLeft(n: int, s: real, remaining: real)
    requires 1 <= n && 0.0 < s && Eps < remaining <= (n - 1) as real * s
    ensures 2 <= n
    ensures 0.0 <= (n - 2) as real * s
    ensures remaining - s <= (n - 2) as real * s
  {
    var k := (n - 2) as real;
    assert (n - 1) as real * s == k * s + s;
  }

  datatype ClickResult = ClickResult(block: Block, hooks: seq<Hook>, usesMove: bool)

  /**
    OnMouseDown on a block. A click is accepted exactly when input is allowed
    and the block is not already sliding; an accepted click starts the slide
    coroutine (which runs its first loop iteration at once, with this frame's
    `step`) and asks for one move to be used. Every other click changes nothing.
  */
  function Click(b: Block, allowInput: bool, hit: Option<Hit>, step: real): (r: ClickResult)
    requires Consistent(b) && 0.0 < step
    ensures Consistent(r.block)
    ensures r.usesMove <==> allowInput && !b.isMoving
    ensures !r.usesMove ==> r.block == b && r.hooks == []
    ensures r.usesMove ==>
      var p := PlanSlide(b.pos, b.direction, b.tilesToMove, b.safeDistance, hit);
      && multiset(r.hooks)[PlayHitSound] + multiset(r.hooks)[PlayMoveSound] == 1
      && (PlayHitSound in r.hooks <==> p.hitSomething)
      && (r.block.isMoving ==> r.block.motion.end == p.end)
      && (!r.block.isMoving ==> r.block.pos == p.end)
      && r.block.(pos := b.pos, isMoving := b.isMoving, motion := b.motion) == b
      && (r.block.motion.Sliding? ==>
            && r.block.motion.remaining <= p.travel
            && p.travel - r.block.motion.remaining <= step
            && r.block.motion.remaining == Max(0.0, p.travel - step))
      && (r.block.motion.Idle? <==> p.travel <= Eps)
      && (StopAllSounds in r.hooks <==> p.travel <= Eps)
  {
    if !allowInput && !b.isMoving then
      ClickResult(b, [], false)
    else if !b.isMoving then
      var p := PlanSlide(b.pos, b.direction, b.tilesToMove, b.safeDistance, hit);
      var started := b.(isMoving := true, motion := Sliding(p.end, p.travel));
      var first := Resume(started, step);
      ClickResult(first.block, [SlideSound(p)] + first.hooks, true)
    else
      ClickResult(b, [], false)
  }

  /** StopMovement: the coroutine is stopped and the block is idle where it stands. */
  function StopMovement(b: Block): (r: Reaction)
    requires Consistent(b)
    ensures Consistent(r.block)
    ensures !r.block.isMoving
    ensures r.block.(isMoving := b.isMoving, motion := b.motion) == b
    ensures r.hooks == [StopAllSounds]
  {
    Reaction(b.(isMoving := false, motion := Idle), [StopAllSounds])
  }

  /** A second StopMovement changes no state. */
  lemma StopMovementIdempotent(b: Block)
    requires Consistent(b)
    ensures StopMovement(StopMovement(b).block).block == StopMovement(b).block
  {
  }

}

=== FILE: game_manager.dfy ===
/**
  The move budget and win/lose bookkeeping of GameManager.cs. Showing a
  result panel is a delayed coroutine in the source; here it is an output
  signal that the call schedules.
*/
module Game {

  datatype Manager = Manager(
    totalMoves: int,
    remainingMoves: int,
    totalBlocks: int,
    clearedBlocks: int,
    collectedKeys: int)

  /** ShowWinWithDelay and ShowLoseWithDelay. */
  datatype Signal = ShowWin | ShowLose

  datatype Reply = Reply(manager: Manager, signals: seq<Signal>)

  /** A freshly created manager, with the field initialisers and the configured `totalMoves`. */
  function Fresh(totalMoves: int): (m: Manager)
    ensures m.totalMoves == totalMoves
    ensures m.clearedBlocks == 0 && m.collectedKeys == 0
  {
    Manager(totalMoves, 0, 0, 0, 0)
  }

  /** Start: the whole budget is available and every block in the scene is still to be cleared. */
  function Start(m: Manager, blockCount: nat): (r: Manager)
    ensures r.remainingMoves == m.totalMoves
    ensures r.totalBlocks == blockCount
    ensures r.(remainingMoves := m.remainingMoves, totalBlocks := m.totalBlocks) == m
  {
    m.(remainingMoves := m.totalMoves, totalBlocks := blockCount)
  }

  /** A level that has just started has its full budget and nothing cleared or collected. */
  lemma StartedLevel(totalMoves: int, blockCount: nat)
    ensures var m := Start(Fresh(totalMoves), blockCount);
      && m.remainingMoves == totalMoves
      && m.clearedBlocks == 0
      && m.collectedKeys == 0
      && m.totalBlocks == blockCount
  {
  }

  /** AddKey: one more key; no other counter moves. */
  function AddKey(m: Manager): (r: Manager)
    ensures r.collectedKeys == m.collectedKeys + 1
    ensures r.(collectedKeys := m.collectedKeys) == m
  {
    m.(collectedKeys := m.collectedKeys + 1)
  }

  /**
    UseMove: a positive budget shrinks by exactly one, an exhausted one is
    left alone; the loss is scheduled on the call that spends the last move
    while blocks remain.
  */
  function UseMove(m: Manager): (r: Reply)
    ensures m.remainingMoves > 0 ==> r.manager == m.(remainingMoves := m.remainingMoves - 1)
    ensures m.remainingMoves <= 0 ==> r == Reply(m, [])
    ensures ShowLose in r.signals <==> m.remainingMoves == 1 && m.clearedBlocks < m.totalBlocks
    ensures ShowWin !in r.signals && |r.signals| <= 1
  {
    if m.remainingMoves > 0 then
      var used := m.(remainingMoves := m.remainingMoves - 1);
      if used.remainingMoves <= 0 && used.clearedBlocks < used.totalBlocks then
        Reply(used, [ShowLose])
      else
        Reply(used, [])
    else
      Reply(m, [])
  }

  datatype Cleared = Cleared(manager: Manager, signals: seq<Signal>, blocksShown: int)

  /**
    BlockCleared: one more cleared block, a block counter one lower than
    before, and a win scheduled on every call that leaves no block to clear.
  */
  function BlockCleared(m: Manager): (r: Cleared)
    ensures r.manager == m.(clearedBlocks := m.clearedBlocks + 1)
    ensures r.blocksShown == m.totalBlocks - m.clearedBlocks - 1
    ensures ShowWin in r.signals <==> m.clearedBlocks + 1 >= m.totalBlocks
    ensures ShowLose !in r.signals && |r.signals| <= 1
  {
    var cleared := m.(clearedBlocks := m.clearedBlocks + 1);
    var shown := cleared.totalBlocks - cleared.clearedBlocks;
    if cleared.clearedBlocks >= cleared.totalBlocks then
      Cleared(cleared, [ShowWin], shown)
    else
      Cleared(cleared, [], shown)
  }

  /** The calls other scripts make on the manager once the level is running. */
  datatype Call = UseMoveCall | BlockClearedCall | AddKeyCall

  function Apply(m: Manager, c: Call): Reply {
    match c
    case UseMoveCall => UseMove(m)
    case BlockClearedCall => var r := BlockCleared(m); Reply(r.manager, r.signals)
    case AddKeyCall => Reply(AddKey(m), [])
  }

  /** The manager after a sequence of calls, with every signal scheduled on the way. */
  function Run(m: Manager, calls: seq<Call>): Reply
    decreases |calls|
  {
    if |calls| == 0 then Reply(m, [])
    else
      var first := Apply(m, calls[0]);
      var rest := Run(first.manager, calls[1..]);
      Reply(rest.manager, first.signals + rest.signals)
  }

  function Count<T(==)>(s: seq<T>, x: T): nat
    decreases |s|
  {
    if |s| == 0 then 0 else (if s[0] == x then 1 else 0) + Count(s[1..], x)
  }

  lemma {:induction false} CountAppend<T>(a: seq<T>, b: seq<T>, x: T)
    ensures Count(a + b, x) == Count(a, x) + Count(b, x)
    decreases |a|
  {
    if |a| == 0 {
      assert a + b == b;
    } else {
      assert (a + b)[1..] == a[1..] + b;
      CountAppend(a[1..], b, x);
    }
  }

  function MaxInt(a: int, b: int): int {
    if a >= b then a else b
  }

  /**
    Over any sequence of calls the budget only ever drops by one per UseMove,
    bottoms out at zero, and the other counters count their own calls.
  */
  lemma {:induction false} RunAccounting(m: Manager, calls: seq<Call>)
    requires m.remainingMoves >= 0
    ensures var r := Run(m, calls).manager;
      && r.remainingMoves == MaxInt(0, m.remainingMoves - Count(calls, UseMoveCall))
      && r.clearedBlocks == m.clearedBlocks + Count(calls, BlockClearedCall)
      && r.collectedKeys == m.collectedKeys + Count(calls, AddKeyCall)
      && r.totalBlocks == m.totalBlocks
      && r.totalMoves == m.totalMoves
    decreases |calls|
  {
    if |calls| > 0 {
      RunAccounting(Apply(m, calls[0]).manager, calls[1..]);
    }
  }

  /**
    A loss is scheduled at most once per level, and never when the budget is
    already spent.
  */
  lemma {:induction false} LoseAtMostOnce(m: Manager, calls: seq<Call>)
    requires m.remainingMoves >= 0
    ensures Count(Run(m, calls).signals, ShowLose) <= (if m.remainingMoves == 0 then 0 else 1)
    decreases |calls|
  {
    if |calls| > 0 {
      var first := Apply(m, calls[0]);
      var rest := Run(first.manager, calls[1..]);
      LoseAtMostOnce(first.manager, calls[1..]);
      CountAppend(first.signals, rest.signals, ShowLose);
      assert Count(first.signals, ShowLose) <= 1 by {
        if first.signals != [] {
          assert first.signals == [first.signals[0]];
        }
      }
      if ShowLose in first.signals {
        assert first.manager.remainingMoves == 0;
      } else {
        assert Count(first.signals, ShowLose) == 0 by {
          if first.signals != [] {
            assert first.signals == [first.signals[0]];
          }
        }
      }
    }
  }

  /**
    With one move and one block, spending the move on the block that then
    reaches the goal schedules the loss first and the win after it: the loss
    check runs when the move is used, before the slide has ended.
  */
  lemma LastMoveWinAlsoLoses()
    ensures Run(Start(Fresh(1), 1), [UseMoveCall, BlockClearedCall]).signals == [ShowLose, ShowWin]
  {
    var m := Start(Fresh(1), 1);
    var first := Apply(m, UseMoveCall);
    assert first.signals == [ShowLose];
    var second := Apply(first.manager, BlockClearedCall);
    assert second.signals == [ShowWin];
    assert [UseMoveCall, BlockClearedCall][1..] == [BlockClearedCall];
    assert Run(second.manager, []).signals == [];
  }

}

=== FILE: geometry.dfy ===
/** Exact real-valued stand-in for Unity's Vector3; y is the vertical axis. */
module Geometry {

  datatype Vec3 = Vec3(x: real, y: real, z: real)

  function Add(a: Vec3, b: Vec3): Vec3 {
    Vec3(a.x + b.x, a.y + b.y, a.z + b.z)
  }

  function Sub(a: Vec3, b: Vec3): Vec3 {
    Vec3(a.x - b.x, a.y - b.y, a.z - b.z)
  }

  function Scale(v: Vec3, k: real): Vec3 {
    Vec3(v.x * k, v.y * k, v.z * k)
  }

  /** The opposite vector, as Vector3's unary minus. */
  function Neg(v: Vec3): Vec3 {
    Vec3(-v.x, -v.y, -v.z)
  }

  /** The square of Vector3.Distance(a, b). */
  function DistSq(a: Vec3, b: Vec3): real {
    var d := Sub(b, a);
    d.x * d.x + d.y * d.y + d.z * d.z
  }

  /** Mathf.Max on two reals. */
  function Max(a: real, b: real): real {
    if a >= b then a else b
  }

}

=== FILE: options.dfy ===
/** Optional values: a raycast may report no hit, and the game-manager singleton may be absent. */
module Options {

  datatype Option<+T> = None | Some(value: T)

}

=== FILE: registry.dfy ===
/**
  The static list of blocks in Block.cs (`allBlocks`): a block appends itself
  in Awake and removes itself in OnDestroy, and DisableAllIdleBlocks walks the
  list to switch off every block that is not sliding. The list is kept
  together with the live block objects it refers to, keyed by object identity.
*/
module BlockRegistry {
  import opened Blocks

  /** Identity of a block object in the scene. */
  type BlockId = nat

  datatype Registry = Registry(order: seq<BlockId>, blocks: map<BlockId, Block>)

  predicate NoDuplicates(s: seq<BlockId>) {
    forall i, j :: 0 <= i < j < |s| ==> s[i] != s[j]
  }

  /** Every live block is listed exactly once, and nothing else is listed. */
  ghost predicate WellFormed(reg: Registry) {
    && NoDuplicates(reg.order)
    && (forall id :: id in reg.order <==> id in reg.blocks)
    && (forall id :: id in reg.blocks ==> Consistent(reg.blocks[id]))
  }

  /** The registry of a scene before any block has woken up. */
  function EmptyRegistry(): (reg: Registry)
    ensures WellFormed(reg) && reg.blocks == map[]
  {
    Registry([], map[])
  }

  /** Block.Awake: a new block object appends itself to the list. */
  function Register(reg: Registry, id: BlockId, b: Block): (r: Registry)
    requires WellFormed(reg) && id !in reg.blocks && Consistent(b)
    ensures WellFormed(r)
    ensures r.order == reg.order + [id]
    ensures r.blocks == reg.blocks[id := b]
  {
    Registry(reg.order + [id], reg.blocks[id := b])
  }

  /** A listed block's own state changes; the list does not. */
  function Replace(reg: Registry, id: BlockId, b: Block): (r: Registry)
    requires WellFormed(reg) && id in reg.blocks && Consistent(b)
    ensures WellFormed(r)
    ensures r.order == reg.order && r.blocks == reg.blocks[id := b]
  {
    Registry(reg.order, reg.blocks[id := b])
  }

  /** The position of the first occurrence of `id` in `s`. */
  function FirstIndex(s: seq<BlockId>, id: BlockId): (i: nat)
    requires id in s
    ensures i < |s| && s[i] == id && id !in s[..i]
  {
    if s[0] == id then 0
    else
      var j := FirstIndex(s[1..], id);
      assert s[..j + 1] == [s[0]] + s[1..][..j];
      j + 1
  }

  /**
    List.Remove: drops the first occurrence of `id`, if any, keeping the
    order of the rest.
  */
  function RemoveFirst(s: seq<BlockId>, id: BlockId): (r: seq<BlockId>)
    ensures id in s ==> r == s[..FirstIndex(s, id)] + s[FirstIndex(s, id) + 1..]
    ensures id !in s ==> r == s
    ensures multiset(r) == multiset(s) - multiset{id}
    ensures NoDuplicates(s) ==> NoDuplicates(r)
  {
    if |s| == 0 then []
    else if s[0] == id then
      assert s[..0] + s[1..] == s[1..] && FirstIndex(s, id) == 0;
      OrderedRemoval(s, id, s[1..]);
      s[1..]
    else
      var tail := RemoveFirst(s[1..], id);
      RemoveFirstCons(s, id, tail);
      OrderedRemoval(s, id, [s[0]] + tail);
      [s[0]] + tail
  }

  /**
    Removing the first occurrence from a list whose head is another element
    keeps the head in front of what the tail leaves.
  */
  lemma RemoveFirstCons(s: seq<BlockId>, id: BlockId, tail: seq<BlockId>)
    requires |s| > 0 && s[0] != id
    requires id in s[1..] ==> tail == s[1..][..FirstIndex(s[1..], id)] + s[1..][FirstIndex(s[1..], id) + 1..]
    requires id !in s[1..] ==> tail == s[1..]
    ensures id in s ==> [s[0]] + tail == s[..FirstIndex(s, id)] + s[FirstIndex(s, id) + 1..]
    ensures id !in s ==> [s[0]] + tail == s
  {
    if id in s {
      assert id in s[1..];
      var j := FirstIndex(s[1..], id);
      assert FirstIndex(s, id) == j + 1;
      assert s[..j + 1] == [s[0]] + s[1..][..j];
      assert s[j + 2..] == s[1..][j + 1..];
    } else {
      assert s == [s[0]] + s[1..];
    }
  }

  /** Any list that is `s` with its first `id` cut out has one `id` fewer and no new duplicates. */
  lemma OrderedRemoval(s: seq<BlockId>, id: BlockId, r: seq<BlockId>)
    requires id in s ==> r == s[..FirstIndex(s, id)] + s[FirstIndex(s, id) + 1..]
    requires id !in s ==> r == s
    ensures multiset(r) == multiset(s) - multiset{id}
    ensures NoDuplicates(s) ==> NoDuplicates(r)
  {
    if id in s {
      RemoveAt(s, FirstIndex(s, id));
    } else {
      assert multiset(s)[id] == 0;
    }
  }

  /** Cutting out position `i` removes one copy of `s[i]` and creates no duplicates. */
  lemma RemoveAt(s: seq<BlockId>, i: nat)
    requires i < |s|
    ensures multiset(s[..i] + s[i + 1..]) == multiset(s) - multiset{s[i]}
    ensures NoDuplicates(s) ==> NoDuplicates(s[..i] + s[i + 1..])
  {
    var r := s[..i] + s[i + 1..];
    assert s == s[..i] + [s[i]] + s[i + 1..];
    if NoDuplicates(s) {
      forall a, b | 0 <= a < b < |r| ensures r[a] != r[b] {
        var a' := if a < i then a else a + 1;
        var b' := if b < i then b else b + 1;
        assert r[a] == s[a'] && r[b] == s[b'];
      }
    }
  }

  /** With no duplicates, removing the first occurrence removes the element outright. */
  lemma RemoveFirstRemoves(s: seq<BlockId>, id: BlockId)
    requires NoDuplicates(s)
    ensures forall x :: x in RemoveFirst(s, id) <==> x in s && x != id
  {
    var r := RemoveFirst(s, id);
    forall x
      ensures x in r <==> x in s && x != id
    {
      assert x in r <==> multiset(r)[x] > 0;
      assert x in s <==> multiset(s)[x] > 0;
      if x == id && id in s {
        assert multiset(s)[id] == 1 by {
          DistinctCountsOnce(s, id);
        }
      }
    }
  }

  /** An element of a duplicate-free sequence occurs in it once. */
  lemma {:induction false} DistinctCountsOnce(s: seq<BlockId>, x: BlockId)
    requires NoDuplicates(s) && x in s
    ensures multiset(s)[x] == 1
    decreases |s|
  {
    assert s == [s[0]] + s[1..];
    if s[0] == x {
      assert x !in s[1..];
    } else {
      DistinctCountsOnce(s[1..], x);
    }
  }

  /** Block.OnDestroy: the destroyed block leaves the list and the scene; the others are untouched. */
  function Unregister(reg: Registry, id: BlockId): (r: Registry)
    requires WellFormed(reg)
    ensures WellFormed(r)
    ensures r.blocks.Keys == reg.blocks.Keys - {id}
    ensures forall x :: x in r.blocks ==> r.blocks[x] == reg.blocks[x]
    ensures |r.order| == |reg.order| - (if id in reg.blocks then 1 else 0)
    ensures r.order == RemoveFirst(reg.order, id)
  {
    RemoveFirstRemoves(reg.order, id);
    var order := RemoveFirst(reg.order, id);
    assert |order| == |reg.order| - (if id in reg.blocks then 1 else 0) by {
      if id in reg.blocks {
        DistinctCountsOnce(reg.order, id);
        assert |multiset(order)| == |multiset(reg.order)| - 1;
      }
    }
    Registry(order, reg.blocks - {id})
  }

  /**
    The loop of DisableAllIdleBlocks over the listed ids in `order`: every
    listed block that is not sliding is disabled; all else is kept.
  */
  function DisableIdle(blocks: map<BlockId, Block>, order: seq<BlockId>): (r: map<BlockId, Block>)
    ensures r.Keys == blocks.Keys
    ensures forall id :: id in blocks ==>
      r[id] == (if id in order && !blocks[id].isMoving then blocks[id].(enabled := false) else blocks[id])
    decreases |order|
  {
    if |order| == 0 then blocks
    else
      var id := order[0];
      var next := if id in blocks && !blocks[id].isMoving then blocks[id := blocks[id].(enabled := false)] else blocks;
      assert forall x :: x in order <==> x == id || x in order[1..];
      DisableIdle(next, order[1..])
  }

  /**
    Block.DisableAllIdleBlocks: exactly the registered blocks that are not
    sliding end up disabled; sliding blocks, positions, slides and the list
    itself are unchanged.
  */
  function DisableAllIdleBlocks(reg: Registry): (r: Registry)
    requires WellFormed(reg)
    ensures WellFormed(r)
    ensures r.order == reg.order && r.blocks.Keys == reg.blocks.Keys
    ensures forall id :: id in reg.blocks ==>
      && r.blocks[id].enabled == (reg.blocks[id].enabled && reg.blocks[id].isMoving)
      && r.blocks[id].(enabled := reg.blocks[id].enabled) == reg.blocks[id]
  {
    Registry(reg.order, DisableIdle(reg.blocks, reg.order))
  }

}

=== FILE: scene.dfy ===
/**
  A level as one value: the block registry, the game-manager singleton (if
  one woke up), the keys, and whether an audio player exists. Every engine
  callback the core scripts react to is an `Event`; `Step` applies one and
  reports the sounds played, the result panels scheduled, and a null
  dereference where the source would throw one.
*/
module Scene {
  import opened Options
  import opened Geometry
  import opened Blocks
  import opened BlockRegistry
  import opened Game
  import opened Triggers

  /** Identity of a key object in the scene. */
  type KeyId = nat

  /** `started` records that the manager's Start has run; Unity calls it once per object. */
  datatype Scene = Scene(
    registry: Registry,
    manager: Option<Manager>,
    started: bool,
    keys: map<KeyId, Key>,
    hasAudio: bool)

  datatype Output = Sound(hook: Hook) | Show(signal: Signal) | NullReference

  datatype Event =
    | BlockAwake(id: BlockId, pos: Vec3, direction: Direction, tilesToMove: real, safeDistance: real)
    | ManagerAwake(totalMoves: int)
    | ManagerStart
      /** A click on block `id` in a frame whose slide step is `step`; `hit` is the raycast along its direction. */
    | MouseDown(id: BlockId, allowInput: bool, hit: Option<Hit>, step: real)
      /** The slide coroutine of block `id` resumes in a later frame. */
    | FrameTick(id: BlockId, step: real)
      /** An obstacle's collision callback stops block `id`. */
    | ObstacleCollision(id: BlockId)
      /** A collider tagged `tag` enters the goal; `other` is the block, when it is one. */
    | FinishTouched(tag: Tag, other: Option<BlockId>)
    | KeyTouched(key: KeyId, tag: Tag)
    | DisableIdleBlocks

  datatype Outcome = Outcome(scene: Scene, outputs: seq<Output>)

  ghost predicate Valid(s: Scene) {
    && WellFormed(s.registry)
    && (s.manager.Some? ==> s.manager.value.remainingMoves >= 0 && s.manager.value.totalMoves >= 0)
    && (s.started ==> s.manager.Some?)
    && (s.manager.Some? && !s.started ==> s.manager.value.remainingMoves == 0)
    && (forall k :: k in s.keys ==> s.keys[k].destroyed == s.keys[k].collected)
  }

  /** What the engine and the level's configuration guarantee of an event. */
  predicate ValidEvent(e: Event) {
    match e
    case BlockAwake(_, _, _, tilesToMove, _) => 0.0 <= tilesToMove
    case ManagerAwake(totalMoves) => 0 <= totalMoves
    case MouseDown(_, _, _, step) => 0.0 < step
    case FrameTick(_, step) => 0.0 < step
    case _ => true
  }

  /** A scene before anything has woken up. */
  function EmptyScene(keys: set<KeyId>, hasAudio: bool): (s: Scene)
    ensures Valid(s)
    ensures s.manager.None? && !s.started && s.registry.blocks == map[]
    ensures forall k :: k in s.keys <==> k in keys
    ensures forall k :: k in s.keys ==> s.keys[k] == NewKey()
  {
    Scene(EmptyRegistry(), None, false, map k | k in keys :: NewKey(), hasAudio)
  }

  /** Audio hooks reach a player only when one exists (the `?.` calls in Block.cs). */
  function Sounds(s: Scene, hooks: seq<Hook>): (r: seq<Output>)
    ensures s.hasAudio ==> |r| == |hooks| && forall i :: 0 <= i < |hooks| ==> r[i] == Sound(hooks[i])
    ensures !s.hasAudio ==> r == []
  {
    if s.hasAudio then seq(|hooks|, i requires 0 <= i < |hooks| => Sound(hooks[i])) else []
  }

  /** The result panels a manager call scheduled, in order. */
  function Shows(signals: seq<Signal>): (r: seq<Output>)
    ensures |r| == |signals| && forall i :: 0 <= i < |signals| ==> r[i] == Show(signals[i])
  {
    seq(|signals|, i requires 0 <= i < |signals| => Show(signals[i]))
  }

  function Step(s: Scene, e: Event): (r: Outcome)
    requires Valid(s) && ValidEvent(e)
    ensures Valid(r.scene)
    ensures r.scene.hasAudio == s.hasAudio
    ensures r.scene.keys.Keys == s.keys.Keys
    ensures s.started ==> r.scene.started
  {
    var reg := s.registry;
    match e
    case BlockAwake(id, pos, d, tilesToMove, safeDistance) =>
      if id in reg.blocks then Outcome(s, [])
      else Outcome(s.(registry := Register(reg, id, NewBlock(pos, d, tilesToMove, safeDistance))), [])

    case ManagerAwake(totalMoves) =>
      if s.manager.None? then Outcome(s.(manager := Some(Fresh(totalMoves))), [])
      else Outcome(s, [])

    case ManagerStart =>
      if s.manager.Some? && !s.started then
        Outcome(s.(manager := Some(Start(s.manager.value, |reg.blocks|)), started := true), [])
      else Outcome(s, [])

    case MouseDown(id, allowInput, hit, step) =>
      OnMouseDown(s, id, allowInput, hit, step)

    case FrameTick(id, step) =>
      if id !in reg.blocks then Outcome(s, [])
      else
        var t := Resume(reg.blocks[id], step);
        Outcome(s.(registry := Replace(reg, id, t.block)), Sounds(s, t.hooks))

    case ObstacleCollision(id) =>
      if id !in reg.blocks then Outcome(s, [])
      else
        var t := StopMovement(reg.blocks[id]);
        Outcome(s.(registry := Replace(reg, id, t.block)), Sounds(s, t.hooks))

    case FinishTouched(tag, other) =>
      OnFinishTouched(s, tag, other)

    case KeyTouched(k, tag) =>
      OnKeyTouched(s, k, tag)

    case DisableIdleBlocks =>
      Outcome(s.(registry := DisableAllIdleBlocks(reg)), [])
  }

  /**
    Block.OnMouseDown reading GameManager.instance: a click on a live block
    either faults on the missing manager or runs Click, with UseMove called
    after the slide has started.
  */
  function OnMouseDown(s: Scene, id: BlockId, allowInput: bool, hit: Option<Hit>, step: real): (r: Outcome)
    requires Valid(s) && 0.0 < step
    ensures Valid(r.scene)
    ensures r.scene.hasAudio == s.hasAudio && r.scene.keys == s.keys && r.scene.started == s.started
  {
    var reg := s.registry;
    if id !in reg.blocks then Outcome(s, [])
    else if s.manager.None? then Outcome(s, [NullReference])
    else
      var c := Click(reg.blocks[id], allowInput, hit, step);
      var used := if c.usesMove then UseMove(s.manager.value) else Reply(s.manager.value, []);
      Outcome(
        s.(registry := Replace(reg, id, c.block), manager := Some(used.manager)),
        Sounds(s, c.hooks) + Shows(used.signals))
  }

  /** FinishCube.OnTriggerEnter followed by the destroyed block's OnDestroy. */
  function OnFinishTouched(s: Scene, tag: Tag, other: Option<BlockId>): (r: Outcome)
    requires Valid(s)
    ensures Valid(r.scene)
    ensures r.scene.hasAudio == s.hasAudio && r.scene.keys == s.keys && r.scene.started == s.started
  {
    var g := FinishTriggerEnter(tag, s.manager.Some?);
    var reg' := if g.destroysOther && other.Some? then Unregister(s.registry, other.value) else s.registry;
    if g.clearsBlock then
      var c := BlockCleared(s.manager.value);
      Outcome(s.(registry := reg', manager := Some(c.manager)), Shows(c.signals))
    else
      Outcome(s.(registry := reg'), [])
  }

  /** Key.OnTriggerEnter on key `k`, calling AddKey on the manager when there is one. */
  function OnKeyTouched(s: Scene, k: KeyId, tag: Tag): (r: Outcome)
    requires Valid(s)
    ensures Valid(r.scene)
    ensures r.scene.hasAudio == s.hasAudio && r.scene.keys.Keys == s.keys.Keys && r.scene.started == s.started
  {
    if k !in s.keys then Outcome(s, [])
    else
      var kr := KeyTriggerEnter(s.keys[k], tag, s.manager.Some?);
      var manager' := if kr.addsKey then Some(AddKey(s.manager.value)) else s.manager;
      Outcome(s.(keys := s.keys[k := kr.key], manager := manager'), [])
  }

  predicate ValidEvents(events: seq<Event>) {
    forall i :: 0 <= i < |events| ==> ValidEvent(events[i])
  }

  /** A level played out event by event, with everything it output. */
  function Play(s: Scene, events: seq<Event>): (r: Outcome)
    requires Valid(s) && ValidEvents(events)
    ensures Valid(r.scene)
    ensures r.scene.hasAudio == s.hasAudio
    decreases |events|
  {
    if |events| == 0 then Outcome(s, [])
    else
      var first := Step(s, events[0]);
      var rest := Play(first.scene, events[1..]);
      Outcome(rest.scene, first.outputs + rest.outputs)
  }

  /**
    A click uses exactly one move, and starts the block's slide, iff input is
    allowed and the block is idle; any other click changes nothing at all.
  */
  lemma MouseDownUsesOneMove(s: Scene, id: BlockId, allowInput: bool, hit: Option<Hit>, step: real)
    requires Valid(s) && 0.0 < step
    requires id in s.registry.blocks && s.manager.Some?
    ensures var b := s.registry.blocks[id];
      var r := Step(s, MouseDown(id, allowInput, hit, step));
      if allowInput && !b.isMoving then
        && r.scene.manager == Some(UseMove(s.manager.value).manager)
        && r.scene.registry.blocks == s.registry.blocks[id := Click(b, allowInput, hit, step).block]
        && r.scene.keys == s.keys
      else
        r == Outcome(s, [])
  {
  }

  /** Without a manager a click dereferences null before touching any state. */
  lemma MouseDownWithoutManager(s: Scene, id: BlockId, allowInput: bool, hit: Option<Hit>, step: real)
    requires Valid(s) && 0.0 < step
    requires id in s.registry.blocks && s.manager.None?
    ensures Step(s, MouseDown(id, allowInput, hit, step)) == Outcome(s, [NullReference])
  {
  }

  /**
    The goal ignores everything not tagged "Block". A "Block" contact
    destroys the block, taking it out of the registry, and counts one clear
    exactly when a manager exists.
  */
  lemma FinishTouchedEffect(s: Scene, tag: Tag, other: Option<BlockId>)
    requires Valid(s)
    ensures var r := Step(s, FinishTouched(tag, other));
      && (tag != BlockTag ==> r == Outcome(s, []))
      && (tag == BlockTag ==>
            && (other.Some? ==> other.value !in r.scene.registry.blocks)
            && (forall x :: x in r.scene.registry.blocks ==> x in s.registry.blocks && r.scene.registry.blocks[x] == s.registry.blocks[x])
            && (forall x :: x in s.registry.blocks && other != Some(x) ==> x in r.scene.registry.blocks)
            && (s.manager.None? ==> r.scene.manager.None? && r.outputs == [])
            && (s.manager.Some? ==>
                  r.scene.manager == Some(s.manager.value.(clearedBlocks := s.manager.value.clearedBlocks + 1))))
  {
  }

  /**
    A key contact calls AddKey only on the key's first "finish" contact and
    only with a manager; the key is collected either way, and no block moves.
  */
  lemma KeyTouchedEffect(s: Scene, k: KeyId, tag: Tag)
    requires Valid(s) && k in s.keys
    ensures var r := Step(s, KeyTouched(k, tag));
      && r.scene.registry == s.registry
      && (tag != FinishTag || s.keys[k].collected ==> r == Outcome(s, []))
      && (tag == FinishTag && !s.keys[k].collected ==>
            && r.scene.keys[k].collected
            && r.scene.manager == (if s.manager.Some? then Some(AddKey(s.manager.value)) else None))
  {
  }


  /**
    How many more losses the scene can still schedule: one, until the started
    manager's budget is spent.
  */
  function LossBudget(s: Scene): nat {
    if s.manager.Some? && s.started && s.manager.value.remainingMoves == 0 then 0 else 1
  }

  lemma {:induction false} CountAbsent<T>(xs: seq<T>, x: T)
    requires x !in xs
    ensures Count(xs, x) == 0
    decreases |xs|
  {
    if |xs| > 0 {
      assert x !in xs[1..] by {
        forall k | 0 <= k < |xs[1..]| ensures xs[1..][k] != x {
          assert xs[1..][k] == xs[k + 1];
        }
      }
      CountAbsent(xs[1..], x);
    }
  }

  /** The panels shown count exactly the signals scheduled. */
  lemma {:induction false} CountShows(signals: seq<Signal>, x: Signal)
    ensures Count(Shows(signals), Show(x)) == Count(signals, x)
    decreases |signals|
  {
    if |signals| > 0 {
      assert Shows(signals)[1..] == Shows(signals[1..]);
      CountShows(signals[1..], x);
    }
  }

  /** Sounds never show a panel. */
  lemma SoundsShowNothing(s: Scene, hooks: seq<Hook>, x: Signal)
    ensures Count(Sounds(s, hooks), Show(x)) == 0
  {
    var r := Sounds(s, hooks);
    assert Show(x) !in r by {
      forall k | 0 <= k < |r| ensures r[k] != Show(x) {
        assert r[k] == Sound(hooks[k]);
      }
    }
    CountAbsent(r, Show(x));
  }

  /** One event schedules a loss only by spending the last move of a started manager. */
  lemma StepLoss(s: Scene, e: Event)
    requires Valid(s) && ValidEvent(e)
    ensures var r := Step(s, e);
      Count(r.outputs, Show(ShowLose)) + LossBudget(r.scene) <= LossBudget(s)
  {
    match e {
      case MouseDown(id, allowInput, hit, step) =>
        MouseDownLoss(s, id, allowInput, hit, step);
      case FrameTick(id, step) =>
        if id in s.registry.blocks {
          SoundsShowNothing(s, Resume(s.registry.blocks[id], step).hooks, ShowLose);
        }
      case ObstacleCollision(id) =>
        if id in s.registry.blocks {
          SoundsShowNothing(s, StopMovement(s.registry.blocks[id]).hooks, ShowLose);
        }
      case FinishTouched(tag, other) =>
        FinishTouchedLoss(s, tag, other);
      case _ =>
    }
  }

  /** A click schedules a loss only when its UseMove spends the last move. */
  lemma MouseDownLoss(s: Scene, id: BlockId, allowInput: bool, hit: Option<Hit>, step: real)
    requires Valid(s) && 0.0 < step
    ensures var r := Step(s, MouseDown(id, allowInput, hit, step));
      Count(r.outputs, Show(ShowLose)) + LossBudget(r.scene) <= LossBudget(s)
  {
    var r := Step(s, MouseDown(id, allowInput, hit, step));
    if id in s.registry.blocks && s.manager.Some? {
      var m := s.manager.value;
      var c := Click(s.registry.blocks[id], allowInput, hit, step);
      var used := if c.usesMove then UseMove(m) else Reply(m, []);
      assert r.outputs == Sounds(s, c.hooks) + Shows(used.signals);
      assert r.scene.manager == Some(used.manager) && r.scene.started == s.started;
      CountAppend(Sounds(s, c.hooks), Shows(used.signals), Show(ShowLose));
      SoundsShowNothing(s, c.hooks, ShowLose);
      CountShows(used.signals, ShowLose);
      if ShowLose in used.signals {
        assert used.signals == [ShowLose];
        assert Count(used.signals, ShowLose) == 1;
        assert used.manager.remainingMoves == 0;
      } else {
        CountAbsent(used.signals, ShowLose);
      }
    } else if id in s.registry.blocks {
      assert r.outputs == [NullReference];
    }
  }

  /** Clearing a block never schedules a loss, and leaves the budget alone. */
  lemma FinishTouchedLoss(s: Scene, tag: Tag, other: Option<BlockId>)
    requires Valid(s)
    ensures var r := Step(s, FinishTouched(tag, other));
      && Show(ShowLose) !in r.outputs
      && r.scene.manager.Some? == s.manager.Some?
      && (s.manager.Some? ==> r.scene.manager.value.remainingMoves == s.manager.value.remainingMoves)
      && Count(r.outputs, Show(ShowLose)) + LossBudget(r.scene) <= LossBudget(s)
  {
    if tag == BlockTag && s.manager.Some? {
      var c := BlockCleared(s.manager.value);
      CountShows(c.signals, ShowLose);
      CountAbsent(c.signals, ShowLose);
    }
  }

  /**
    However a level is played, the lose panel is scheduled at most once: the
    budget is refilled only by the manager's single Start.
  */
  lemma {:induction false} PlayLosesAtMostOnce(s: Scene, events: seq<Event>)
    requires Valid(s) && ValidEvents(events)
    ensures Count(Play(s, events).outputs, Show(ShowLose)) <= LossBudget(s)
    decreases |events|
  {
    if |events| > 0 {
      var first := Step(s, events[0]);
      var rest := Play(first.scene, events[1..]);
      assert ValidEvents(events[1..]) by {
        forall i | 0 <= i < |events[1..]| ensures ValidEvent(events[1..][i]) {
          assert events[1..][i] == events[i + 1];
        }
      }
      StepLoss(s, events[0]);
      PlayLosesAtMostOnce(first.scene, events[1..]);
      CountAppend(first.outputs, rest.outputs, Show(ShowLose));
    }
  }

  /** A level played from an empty scene shows the lose panel at most once. */
  lemma LevelLosesAtMostOnce(keys: set<KeyId>, hasAudio: bool, events: seq<Event>)
    requires ValidEvents(events)
    ensures Count(Play(EmptyScene(keys, hasAudio), events).outputs, Show(ShowLose)) <= 1
  {
    PlayLosesAtMostOnce(EmptyScene(keys, hasAudio), events);
  }

}

=== FILE: triggers.dfy ===
/**
  The two trigger scripts that feed the game manager: a key (Key.cs) is
  collected once by the first collider tagged "finish", and the goal
  (FinishCube.cs) clears and destroys whatever tagged "Block" enters it.
  Whether a manager exists is an input: both scripts check for it.
*/
module Triggers {
  import opened Blocks

  /** `destroyed` records that Destroy was requested for the key object. */
  datatype Key = Key(collected: bool, destroyed: bool)

  function NewKey(): (k: Key)
    ensures !k.collected && !k.destroyed
  {
    Key(false, false)
  }

  datatype KeyReaction = KeyReaction(key: Key, addsKey: bool)

  /**
    Key.OnTriggerEnter. Only the first contact with a "finish" collider
    counts: it marks the key collected and destroyed, and calls AddKey when
    there is a manager to call.
  */
  function KeyTriggerEnter(k: Key, tag: Tag, hasManager: bool): (r: KeyReaction)
    ensures tag != FinishTag || k.collected ==> r == KeyReaction(k, false)
    ensures tag == FinishTag && !k.collected ==>
      && r.key == Key(true, true)
      && (r.addsKey <==> hasManager)
  {
    if !k.collected && tag == FinishTag then
      KeyReaction(Key(true, true), hasManager)
    else
      KeyReaction(k, false)
  }

  /** A collider touching the key: its tag, and whether a manager exists at that moment. */
  datatype Contact = Contact(tag: Tag, hasManager: bool)

  datatype KeyHistory = KeyHistory(key: Key, addKeyCalls: nat)

  /** The key after a sequence of contacts, with the number of AddKey calls it made. */
  function KeyContacts(k: Key, contacts: seq<Contact>): KeyHistory
    decreases |contacts|
  {
    if |contacts| == 0 then KeyHistory(k, 0)
    else
      var first := KeyTriggerEnter(k, contacts[0].tag, contacts[0].hasManager);
      var rest := KeyContacts(first.key, contacts[1..]);
      KeyHistory(rest.key, rest.addKeyCalls + (if first.addsKey then 1 else 0))
  }

  /**
    A key yields at most one AddKey over any sequence of contacts, none once
    collected, and it ends collected exactly when it was already collected or
    some contact was tagged "finish".
  */
  lemma {:induction false} KeyCollectedOnce(k: Key, contacts: seq<Contact>)
    requires k.destroyed == k.collected
    ensures var h := KeyContacts(k, contacts);
      && h.addKeyCalls <= (if k.collected then 0 else 1)
      && (k.collected ==> h.key == k)
      && (h.key.collected <==> k.collected || exists i :: 0 <= i < |contacts| && contacts[i].tag == FinishTag)
      && h.key.destroyed == h.key.collected
    decreases |contacts|
  {
    if |contacts| > 0 {
      var first := KeyTriggerEnter(k, contacts[0].tag, contacts[0].hasManager);
      KeyCollectedOnce(first.key, contacts[1..]);
      if exists i :: 0 <= i < |contacts[1..]| && contacts[1..][i].tag == FinishTag {
        var i :| 0 <= i < |contacts[1..]| && contacts[1..][i].tag == FinishTag;
        assert contacts[i + 1].tag == FinishTag;
      }
      if exists i :: 0 <= i < |contacts| && contacts[i].tag == FinishTag {
        var i :| 0 <= i < |contacts| && contacts[i].tag == FinishTag;
        if i > 0 {
          assert contacts[1..][i - 1].tag == FinishTag;
        }
      }
    }
  }

  datatype GoalReaction = GoalReaction(clearsBlock: bool, destroysOther: bool)

  /**
    FinishCube.OnTriggerEnter: anything tagged "Block" is destroyed, and
    counted as cleared when there is a manager; anything else is ignored.
  */
  function FinishTriggerEnter(tag: Tag, hasManager: bool): (r: GoalReaction)
    ensures r.destroysOther <==> tag == BlockTag
    ensures r.clearsBlock <==> tag == BlockTag && hasManager
  {
    if tag == BlockTag then GoalReaction(hasManager, true) else GoalReaction(false, false)
  }

}
